=== FILE: README.md ===
# react-d3-graph: boundary force, graph glue and demo graph, in Dafny

This project models the force-graph demo `react-d3-graph`. A React component
lays out a bipartite graph of hyperlinks and nodes with a d3 force simulation.
The model covers three parts of it.

- **The boundary force** (`forceBoundary`, module `ForceBoundary`) is a
  hand-written d3 force. When the simulation initialises it, it caches one
  radius per node. On each tick it clamps every node so that
  `position ± radius` stays inside `[left, right] × [top, bottom]`. The class
  `BoundaryForce` holds the closure's state (`_nodes`, `_radii`). Its methods
  `Initialize` and `Force` are the two loops. `Initialize` is proved against
  the radius normalisation `RadiusOf`, and `Force` against the specification
  function `ClampAll`. Lemmas about `ClampAll` prove
  containment, that nodes already inside stay put, and idempotence. Lemmas
  about the single-node clamp `ClampPoint` prove axis independence and that
  the right/bottom edge wins when the box is too narrow.
- **The `Graph` component's glue** (module `Graph`) covers several pieces:
  - the per-type radius, colours, charge and collision radius;
  - the centred boundary rectangle;
  - the view box with its zoom and pan handlers (class `Viewport`);
  - the input filters;
  - the drag pin/unpin protocol on `fx`/`fy` and `alphaTarget`;
  - resolution of link endpoints by id, and the tick handler's
    "coordinate or 0" endpoint rule.
- **The demo graph of `App`** (module `App`) has two parts:
  - `createNodes` and `createLinks` are loops. `Math.random` is passed in as
    the finite sequence of values it would return, and every connection is
    proved to be the node its draw picks, with the loop stopping at the first
    second draw above the probability.
  - The flattening into the vertex list `_nodes` and the edge list `_links`
    is pure. Ids are the actual strings `"l" + id` and `"n" + id`.

  The lemmas prove that every edge endpoint names a vertex and that vertex
  ids are pairwise distinct, which is what resolving links by id relies on.

Module `SimNodes` holds the node record that d3 mutates: the graph's `id` and
`type`, plus `x`, `y`, `vx`, `vy`, `fx` and `fy`. Coordinates are `real`
because the code under study only compares, adds, subtracts and divides them.

Notes on the code:
- A click sets the selection to the clicked node; clicking it again keeps it
  selected.
- The drag handlers change `alphaTarget` only when no other drag gesture is
  active.
- The zoom handler takes the event's scale as it is; the component applies
  no minimum of its own.
- When a node's disc is wider than the box, the node is not centred. The
  right (bottom) clamp wins, because both tests read the coordinate as it
  was before the clamp.
- The many-body strength is -500 for `"n"` vertices and a fixed 0 for all
  other vertices.

## Model

| member | source | states |
|---|---|---|
| ForceBoundary.RadiusOf | react-d3-graph/src/forceBoundary.ts:14-20 | a numeric radius gives that value for every node, a missing radius gives 0, and a radius function is applied to the node |
| ForceBoundary.ClampAxis | react-d3-graph/src/forceBoundary.ts:25-31 | per axis: the disc ends up inside `[lo, hi]` whenever `hi - lo >= 2r`; a coordinate already inside is unchanged; any new value is one of the two edge positions; if only `v - r < lo` the result is `lo + r`; if `v + r > hi` the result is `hi - r`, even when `v - r < lo` too |
| ForceBoundary.ClampPoint | react-d3-graph/src/forceBoundary.ts:25-31 | one node's clamp: a disc that fits the box ends inside it, and a disc already inside stays where it is |
| ForceBoundary.ClampAll | react-d3-graph/src/forceBoundary.ts:22-33 | one `force()` pass over a list of positions keeps the list's length |
| ForceBoundary.ClampAllAt | react-d3-graph/src/forceBoundary.ts:22-33 | node `k` after the pass is node `k` clamped with its own cached radius `_radii[k]`, so order is kept and nodes do not interact |
| ForceBoundary.ClampAllContained | react-d3-graph/src/forceBoundary.ts:22-33 | after the pass, every node whose disc fits the box satisfies `left <= x - r`, `x + r <= right`, `top <= y - r` and `y + r <= bottom` |
| ForceBoundary.ClampAllKeepsInside | react-d3-graph/src/forceBoundary.ts:28-31 | if every node is already inside the box, the pass changes nothing |
| ForceBoundary.ClampAllIdempotent | react-d3-graph/src/forceBoundary.ts:22-33 | if every radius fits the box, two passes give the same positions as one |
| ForceBoundary.AxisIndependence | react-d3-graph/src/forceBoundary.ts:25-31 | the new `x` depends only on the old `x`, `r`, `left` and `right`; the new `y` only on the old `y`, `r`, `top` and `bottom` |
| ForceBoundary.BothEdgesCrossedRightWins | react-d3-graph/src/forceBoundary.ts:25-31 | when the disc crosses both edges of an axis, the result is `right - r` (respectively `bottom - r`) |
| ForceBoundary.BoundaryForce.constructor | react-d3-graph/src/forceBoundary.ts:9-17 | a new force holds its box and radius argument, no nodes, and an empty radius cache |
| ForceBoundary.BoundaryForce.Initialize | react-d3-graph/src/forceBoundary.ts:35-43 | stores the node array; if the array is missing, returns without touching `_radii`; otherwise `_radii[i]` becomes the normalised radius of `nodes[i]` for every `i`, and cached entries past the array stay |
| ForceBoundary.BoundaryForce.ClampNode | react-d3-graph/src/forceBoundary.ts:25-31 | the loop body for one node: its position becomes its old position clamped with its radius, and only its `x` and `y` may change |
| ForceBoundary.BoundaryForce.Force | react-d3-graph/src/forceBoundary.ts:22-33 | fails before `initialize` (the source throws); otherwise the node positions become `ClampAll` of the old positions under `_radii`, and only `x` and `y` of the nodes may change |
| ForceBoundary.ForceTwice | react-d3-graph/src/forceBoundary.ts:22-33 | two consecutive `force()` calls over nodes that fit the box end where the first call puts them, with every node inside the box |
| Graph.IsNode | react-d3-graph/src/Graph.tsx:197-199 | only a defined node of type `"n"` is a node; an undefined node is not |
| Graph.FillThickness | react-d3-graph/src/Graph.tsx:201-203 | fill thickness is 15 exactly for `"n"` nodes and 5 exactly for the others |
| Graph.StrokeThickness | react-d3-graph/src/Graph.tsx:205-207 | stroke thickness is 3 exactly for `"n"` nodes and 2 exactly for the others, always thinner than the fill |
| Graph.Radius | react-d3-graph/src/Graph.tsx:201-211 | fill plus stroke thickness: 18 for a node of type `"n"`, 7 for any other type or an undefined node |
| Graph.FillColor | react-d3-graph/src/Graph.tsx:213-215 | `"#f66"` exactly for `"n"` nodes, `"#66f"` exactly for the others |
| Graph.StrokeColor | react-d3-graph/src/Graph.tsx:217-219 | `"#fff"` exactly when the node's id is the selection; otherwise `"#833"` for `"n"` nodes and `"#338"` for the rest, so selection takes precedence over type |
| Graph.Charge | react-d3-graph/src/Graph.tsx:94-97 | many-body strength is -500 for `"n"` nodes and 0 for all others, and never positive |
| Graph.CollisionRadius | react-d3-graph/src/Graph.tsx:102-105 | collision radius is 20 for `"n"` nodes and 9 otherwise, always more than the drawn radius |
| Graph.Boundary | react-d3-graph/src/Graph.tsx:26 | the boundary rectangle is centred on the origin, with `right - left == width` and `bottom - top == height` |
| Graph.EveryNodeFits | react-d3-graph/src/Graph.tsx:93 | with width and height of at least 36 (the default is 600), every node's disc fits the boundary, so containment applies to all nodes |
| Graph.DefaultBoundaryFits | react-d3-graph/src/Graph.tsx:26 | with the default 600 x 600 size every node's disc fits the boundary |
| Graph.NewBoundaryForce | react-d3-graph/src/Graph.tsx:93 | the installed force uses the centred boundary and `getRadius` as its radius function |
| Graph.Viewport.constructor | react-d3-graph/src/Graph.tsx:27-28 | the view starts centred on the origin with zoom 1 |
| Graph.Viewport.Dims | react-d3-graph/src/Graph.tsx:29-32 | the visible extent times the zoom equals the component's width and height |
| Graph.Viewport.CurrentViewBox | react-d3-graph/src/Graph.tsx:33-36 | the view box is centred on `center`, and its size times the zoom is `(width, height)` |
| Graph.Viewport.Zoom | react-d3-graph/src/Graph.tsx:150-152 | the zoom handler adopts the event's scale |
| Graph.Viewport.Pan | react-d3-graph/src/Graph.tsx:163-167 | a pan moves the centre by `-(dx, dy) / k`; the view box keeps its size and shifts by the same amount; the zoom is unchanged |
| Graph.DragAccepts | react-d3-graph/src/Graph.tsx:139 | the node drag accepts only presses with a button, and never one the pan accepts |
| Graph.PanAccepts | react-d3-graph/src/Graph.tsx:163 | the pan accepts only presses with a button other than the primary one |
| Graph.ZoomAccepts | react-d3-graph/src/Graph.tsx:150 | the zoom accepts every wheel event and no mouse or touch event |
| Graph.InputModalitiesDisjoint | react-d3-graph/src/Graph.tsx:139-163 | no press is accepted by both the node drag and the pan; an event that is not from the wheel never zooms; a press without a button is accepted by neither the drag nor the pan |
| Graph.Simulation.constructor | react-d3-graph/src/Graph.tsx:89-90 | a new simulation is ticking with alpha target 0, d3's defaults |
| Graph.DragStarted | react-d3-graph/src/Graph.tsx:120-124 | pins the node at its current position (`fx, fy := x, y`); only when no other drag is active, sets `alphaTarget` to 0.3 and restarts the timer |
| Graph.Dragged | react-d3-graph/src/Graph.tsx:126-129 | moves the pin to the pointer position |
| Graph.DragEnded | react-d3-graph/src/Graph.tsx:131-135 | clears `fx` and `fy`; only when no other drag is active, resets `alphaTarget` to 0 |
| Graph.DragGesture | react-d3-graph/src/Graph.tsx:119-143 | a press, move and release leaves the node unpinned and the simulation cooling, and the handlers never write `x`, `y`, `vx` or `vy` |
| Graph.Selection.constructor | react-d3-graph/src/Graph.tsx:25 | the selection starts as the empty string |
| Graph.Selection.Click | react-d3-graph/src/Graph.tsx:171-174 | clicking a node makes its id the selection |
| Graph.SelectionHighlightsOne | react-d3-graph/src/Graph.tsx:217-219 | with distinct ids, the selected node is the only one drawn with a white stroke |
| Graph.Resolve | react-d3-graph/src/Graph.tsx:100 | resolving an id yields the last node carrying that id (a later node shadows an earlier one), and yields null exactly when no node carries it |
| Graph.ResolveFinds | react-d3-graph/src/Graph.tsx:100 | an id that some node carries always resolves |
| Graph.ResolveUnique | react-d3-graph/src/Graph.tsx:100 | with distinct ids, an id resolves to the very node that carries it |
| Graph.Endpoint | react-d3-graph/src/Graph.tsx:111-115 | an endpoint is drawn at its node's position, or at `(0, 0)` when the node is missing |
| Graph.LinkLine | react-d3-graph/src/Graph.tsx:111-115 | each end of a link's line sits at the last node carrying the end's id, or at `(0, 0)` when no node carries it |
| Graph.LinkLineJoinsNodes | react-d3-graph/src/Graph.tsx:111-115 | with distinct ids and both endpoints present, the drawn line joins the two nodes' positions |
| App.Decimal | react-d3-graph/src/App.tsx:45-46 | the text of a number is non-empty, has at least two characters from 10 on, and ends in the number's last decimal digit |
| App.DecimalDigits | react-d3-graph/src/App.tsx:45-46 | the text of a number consists of decimal digits only |
| App.DecimalInjective | react-d3-graph/src/App.tsx:45-46 | different numbers have different decimal text |
| App.VertexId | react-d3-graph/src/App.tsx:45-52 | a vertex id is its prefix letter (`"l"` for a hyperlink, `"n"` for a node) followed by the decimal text of its number |
| App.VertexIdsInjective | react-d3-graph/src/App.tsx:45-46 | two vertex ids are equal exactly when their prefixes and their numbers are: an `"l"` id never equals an `"n"` id, and within each prefix the id determines the number |
| App.CreateNodes | react-d3-graph/src/App.tsx:14-18 | returns exactly `count` nodes (none when `count <= 0`) with ids `0..count-1` in ascending order |
| App.DrawIndex | react-d3-graph/src/App.tsx:30 | `Math.floor(Math.random() * len)` is a valid index into a non-empty array |
| App.DrawConnections | react-d3-graph/src/App.tsx:29-33 | one hyperlink's loop: at least one connection, two draws per connection, connection `m` is the node picked by draw `2m`, and draw `2m + 1` exceeds `p` exactly for the last connection; it fails only with fewer than two draws left after an unfinished run of picks |
| App.FollowDrawsConnected | react-d3-graph/src/App.tsx:30 | every connection picked by a draw is the id of a given node |
| App.CreateLinks | react-d3-graph/src/App.tsx:20-37 | fails as the source does when there are no nodes and `count > 0`; otherwise returns exactly `count` links with ids `0..count-1` in order, each with at least one connection, each connection the id of a given node; hyperlink `i` reads the draws right after those of hyperlinks `0..i-1`, each connection is the node its first draw picks, and its second draw exceeds `p` exactly for the last connection; two draws are consumed per connection; it fails with `RandomExhausted` exactly when the draws run out before the last hyperlink is complete |
| App.LinkDrawsDetermine | react-d3-graph/src/App.tsx:29-33 | the draws determine a hyperlink: two hyperlinks that follow the same draws from the same offset have the same connections |
| App.OpenPicksLeaveDraws | react-d3-graph/src/App.tsx:29-33 | a hyperlink the draws complete leaves at least two draws after any unfinished run of picks from its offset |
| App.FollowDrawsPrefix | react-d3-graph/src/App.tsx:27-35 | two numbered hyperlink lists that follow the same draws agree on their common prefix |
| App.CompleteLinksDoNotRunOut | react-d3-graph/src/App.tsx:27-35 | when the draws complete all `count` hyperlinks, they do not run out, so success and exhaustion exclude each other |
| App.Vertices | react-d3-graph/src/App.tsx:43-48 | `_nodes` lists the `"l" + id` vertices of type `"l"` in link order, then the `"n" + id` vertices of type `"n"` in node order, and has length `links.length + nodes.length` |
| App.LinkEdges | react-d3-graph/src/App.tsx:52 | one edge per connection of a link, in order, from `"l" + l.id` to `"n" + c` |
| App.Edges | react-d3-graph/src/App.tsx:50-54 | `_links` has as many edges as all links have connections together |
| App.EdgesAt | react-d3-graph/src/App.tsx:50-54 | the edge for connection `k` of link `i` sits right after the edges of all earlier links and of the link's first `k` connections, so order and repeated connections are kept |
| App.EdgeMembership | react-d3-graph/src/App.tsx:50-54 | an edge is in `_links` exactly when it joins `"l" + l.id` to `"n" + c` for some link `l` and connection `c` of `l` |
| App.EdgeEndpointsAreVertices | react-d3-graph/src/App.tsx:43-54 | if every connection names a node, every `_links` source and target is the id of some `_nodes` vertex |
| App.VertexIdsDistinct | react-d3-graph/src/App.tsx:43-48 | if link ids and node ids are each distinct, all `_nodes` ids are pairwise distinct |
| App.EdgesResolve | react-d3-graph/src/App.tsx:43-54 | once the simulation holds one node per vertex with the vertex's id, every edge endpoint resolves by id to a node |
| App.Build | react-d3-graph/src/App.tsx:39-54 | on success, `links` are 100 hyperlinks numbered `0..99`, each with at least one connection, that follow the draws over the nodes `0..19` with probability 0.3, and the graph is exactly `(Vertices(links, nodes), Edges(links))`: 120 vertices with pairwise distinct ids, every edge endpoint naming one of them; it fails exactly when the draws run out for 100 hyperlinks over the nodes `0..19` with probability 0.3 |

## Left out

- The d3 simulation itself is not part of this model. That covers `forceSimulation`, `forceX`/`forceY`, `forceManyBody`, `forceLink`, `forceCollide`, alpha decay and velocity integration. It is library code with floating-point numerics. Only the parameters the component passes in are modelled. This includes the rule that a pinned node sits at `fx`/`fy` after a tick.
- SVG and DOM manipulation, React hooks (`useEffect`, `useRef`, `useState`, `useMemo`), the `flag` re-entry guard and the effect that repaints strokes are rendering plumbing. Only the values they draw are modelled.
- The label rescale `1 / k^0.8` uses floating-point `Math.pow` and is not modelled.
- `Math.random` is an argument: the sequence of values it returns, each in `[0, 1)`. Its distribution is not modelled, nor whether the unbounded `while (true)` loop terminates.
- App.CreateLinks: because the sequence of draws is finite, it can fail with `RandomExhausted`, an outcome the source cannot have; it fails exactly when fewer than two draws remain for a pick the source would make (`DrawsRunOut`).
- App.Build: fails with `RandomExhausted` exactly when `App.CreateLinks` does, for the same reason.
- Coordinates are reals. `NaN`, infinities and undefined coordinates are not modelled, so a falsy coordinate in the tick handler is only `0`.
- Graph.Viewport.Zoom: requires a positive scale. d3's default scale extent admits 0, where the source would divide by zero.
- ForceBoundary.BoundaryForce.Force: requires the node objects to be pairwise distinct. In the app they are, because `_nodes` builds a fresh object per vertex (react-d3-graph/src/App.tsx:45-46); the force itself does not check it. `_nodes` is the sequence seen at `initialize`, so nodes pushed later into the same JavaScript array are not seen.
- ForceBoundary.BoundaryForce.Force: reports failure with `ok == false` where the source throws a `TypeError` because `initialize` was never called.
- d3's `index` field and the force's unimplemented setters (a TODO in the source) are not modelled.
- Graph.Resolve: returns `null` for an unknown id. d3's own "node not found" error at initialisation is library behaviour and is not modelled.
- App.DecimalInjective: ids are natural numbers. JavaScript's exponent notation for numbers of `10^21` and above is not modelled.
- The other projects of the repository are not part of this model: the AWS CDK stacks, the Go echo server and the Svelte store are configuration or plumbing with no logic of their own.

=== FILE: app.dfy ===
/** The demo graph of the `App` component (react-d3-graph/src/App.tsx):
    numbered nodes, hyperlinks that each connect one or more random nodes,
    and their flattening into the bipartite vertex and edge lists that the
    `Graph` component draws. `Math.random` is an argument: the sequence of
    values it would return, each in [0, 1). */
module App {
  import opened SimNodes
  import Graph

  /** An `INode` of the app: a numbered node. */
  datatype AppNode = AppNode(id: nat)

  /** An `ILink` of the app: a numbered hyperlink and the ids of the nodes
      it connects. */
  datatype Hyperlink = Hyperlink(id: nat, connections: seq<nat>)

  /** A vertex handed to the graph: its string id and its `type`. */
  datatype Vertex = Vertex(id: string, kind: string)

  datatype Error =
    | NoNodes          // `nodes.at(...)` is undefined, so reading `.id` throws
    | RandomExhausted  // the given draws ran out before the loop stopped

  datatype Result<T> = Ok(value: T) | Err(error: Error)

  // ---------------------------------------------------------------------
  // Numbers as strings.

  function Digit(d: nat): (c: char)
    requires d < 10
    ensures '0' <= c <= '9'
  {
    (('0' as int) + d) as char
  }

  /** The decimal text of `n`, as `"" + n` writes it. */
  function Decimal(n: nat): (s: string)
    ensures 1 <= |s|
    ensures n >= 10 ==> 2 <= |s|
    ensures s[|s| - 1] == Digit(n % 10)
  {
    if n < 10 then [Digit(n)] else Decimal(n / 10) + [Digit(n % 10)]
  }

  /** The text of a number consists of decimal digits only. */
  lemma {:induction false} DecimalDigits(n: nat)
    ensures forall k :: 0 <= k < |Decimal(n)| ==> '0' <= Decimal(n)[k] <= '9'
  {
    if n >= 10 {
      DecimalDigits(n / 10);
      assert Decimal(n) == Decimal(n / 10) + [Digit(n % 10)];
    }
  }

  /** Different numbers print differently. */
  lemma {:induction false} DecimalInjective(a: nat, b: nat)
    requires Decimal(a) == Decimal(b)
    ensures a == b
  {
    if a >= 10 && b >= 10 {
      var da, db := Decimal(a / 10), Decimal(b / 10);
      assert Decimal(a) == da + [Digit(a % 10)];
      assert Decimal(b) == db + [Digit(b % 10)];
      assert da == Decimal(a)[..|Decimal(a)| - 1];
      assert db == Decimal(b)[..|Decimal(b)| - 1];
      DecimalInjective(a / 10, b / 10);
    }
  }

  /** A vertex id: the prefix letter followed by the number's text, as
      `"l" + l.id` and `"n" + n.id` build them. */
  function VertexId(prefix: char, id: nat): (s: string)
    ensures |s| >= 2 && s[0] == prefix && s[1..] == Decimal(id)
  {
    [prefix] + Decimal(id)
  }

  /** Vertex ids are injective: the prefix tells a hyperlink's id from a
      node's, and within a prefix the id determines the number. */
  lemma VertexIdsInjective(p: char, q: char, a: nat, b: nat)
    ensures VertexId(p, a) == VertexId(q, b) <==> p == q && a == b
  {
    if VertexId(p, a) == VertexId(q, b) {
      assert Decimal(a) == VertexId(p, a)[1..] && Decimal(b) == VertexId(q, b)[1..];
      DecimalInjective(a, b);
    }
  }

  // ---------------------------------------------------------------------
  // createNodes and createLinks.

  /** `createNodes(count)`: nodes numbered 0 to count - 1, in order. */
  method CreateNodes(count: int) returns (nodes: seq<AppNode>)
    ensures |nodes| == Max(count, 0)
    ensures forall i :: 0 <= i < |nodes| ==> nodes[i].id == i
  {
    nodes := [];
    var i := 0;
    while i < count
      invariant 0 <= i <= Max(count, 0)
      invariant |nodes| == i
      invariant forall k :: 0 <= k < i ==> nodes[k].id == k
    {
      nodes := nodes + [AppNode(i)];
      i := i + 1;
    }
  }

  /** `c` is the id of some element of `nodes`. */
  predicate IsNodeId(nodes: seq<AppNode>, c: nat) {
    exists j :: 0 <= j < |nodes| && nodes[j].id == c
  }

  /** Every connection of every hyperlink names a node. */
  predicate Connected(links: seq<Hyperlink>, nodes: seq<AppNode>) {
    forall i, k :: 0 <= i < |links| && 0 <= k < |links[i].connections| ==>
      IsNodeId(nodes, links[i].connections[k])
  }

  /** The number of connections over all hyperlinks. */
  function TotalConnections(links: seq<Hyperlink>): nat {
    if links == [] then 0
    else TotalConnections(links[..|links| - 1]) + |links[|links| - 1].connections|
  }

  /** Values drawn from `Math.random`. */
  predicate Draws(random: seq<real>) {
    forall k :: 0 <= k < |random| ==> 0.0 <= random[k] < 1.0
  }

  /** `Math.floor(r * len)` for a draw `r`: an index into an array of `len`. */
  function DrawIndex(r: real, len: nat): (i: nat)
    requires 0.0 <= r < 1.0 && 0 < len
    ensures i < len
  {
    assert 0.0 <= r * (len as real) < len as real;
    (r * (len as real)).Floor
  }

  /** Hyperlink `l` is what the loop of `createLinks` builds from the draws
      starting at `random[at]`: connection `m` is the node picked by draw
      `at + 2m`, and draw `at + 2m + 1` exceeds `p` exactly for the last
      connection, which ends the loop. */
  predicate LinkFollowsDraws(l: Hyperlink, nodes: seq<AppNode>, p: real, random: seq<real>, at: nat) {
    Draws(random) && |nodes| > 0 &&
    forall m :: 0 <= m < |l.connections| ==>
      at + 2 * m + 1 < |random| &&
      l.connections[m] == nodes[DrawIndex(random[at + 2 * m], |nodes|)].id &&
      (random[at + 2 * m + 1] > p <==> m == |l.connections| - 1)
  }

  /** The connections drawn so far, from `random[at]` on, none of which
      stopped the loop. */
  predicate PickedSoFar(cs: seq<nat>, nodes: seq<AppNode>, p: real, random: seq<real>, at: nat) {
    Draws(random) && |nodes| > 0 &&
    forall m :: 0 <= m < |cs| ==>
      at + 2 * m + 1 < |random| &&
      cs[m] == nodes[DrawIndex(random[at + 2 * m], |nodes|)].id &&
      random[at + 2 * m + 1] <= p
  }

  /** One more pick whose second draw does not exceed `p` continues the loop. */
  lemma PickedSoFarExtend(cs: seq<nat>, nodes: seq<AppNode>, p: real, random: seq<real>, at: nat)
    requires PickedSoFar(cs, nodes, p, random, at)
    requires at + 2 * |cs| + 1 < |random| && random[at + 2 * |cs| + 1] <= p
    ensures PickedSoFar(cs + [nodes[DrawIndex(random[at + 2 * |cs|], |nodes|)].id], nodes, p, random, at)
  {
  }

  /** One more pick whose second draw exceeds `p` completes the hyperlink. */
  lemma PickedSoFarFinish(id: nat, cs: seq<nat>, nodes: seq<AppNode>, p: real, random: seq<real>, at: nat)
    requires PickedSoFar(cs, nodes, p, random, at)
    requires at + 2 * |cs| + 1 < |random| && random[at + 2 * |cs| + 1] > p
    ensures LinkFollowsDraws(Hyperlink(id, cs + [nodes[DrawIndex(random[at + 2 * |cs|], |nodes|)].id]), nodes, p, random, at)
  {
  }

  /** Every hyperlink follows the draws, each one starting where the
      connections of the hyperlinks before it stopped. */
  predicate FollowDraws(links: seq<Hyperlink>, nodes: seq<AppNode>, p: real, random: seq<real>) {
    forall i :: 0 <= i < |links| ==>
      LinkFollowsDraws(links[i], nodes, p, random, 2 * TotalConnections(links[..i]))
  }

  /** Appending a hyperlink that follows the draws after all earlier
      connections keeps the whole list following the draws. */
  lemma FollowDrawsAppend(links: seq<Hyperlink>, l: Hyperlink, nodes: seq<AppNode>, p: real, random: seq<real>)
    requires FollowDraws(links, nodes, p, random)
    requires LinkFollowsDraws(l, nodes, p, random, 2 * TotalConnections(links))
    ensures FollowDraws(links + [l], nodes, p, random)
  {
    var ls := links + [l];
    forall i | 0 <= i < |ls|
      ensures LinkFollowsDraws(ls[i], nodes, p, random, 2 * TotalConnections(ls[..i]))
    {
      if i == |links| {
        assert ls[..i] == links;
      } else {
        assert ls[..i] == links[..i] && ls[i] == links[i];
      }
    }
  }

  /** Hyperlinks that follow the draws connect only nodes. */
  lemma FollowDrawsConnected(links: seq<Hyperlink>, nodes: seq<AppNode>, p: real, random: seq<real>)
    requires FollowDraws(links, nodes, p, random)
    ensures Connected(links, nodes)
  {
    forall i, k | 0 <= i < |links| && 0 <= k < |links[i].connections|
      ensures IsNodeId(nodes, links[i].connections[k])
    {
      assert LinkFollowsDraws(links[i], nodes, p, random, 2 * TotalConnections(links[..i]));
      var at := 2 * TotalConnections(links[..i]);
      var j := DrawIndex(random[at + 2 * k], |nodes|);
      assert nodes[j].id == links[i].connections[k];
    }
  }

  /** The inner loop of `createLinks` for hyperlink `id`, reading draws from
      `random[start]` on: pick a node, and stop once the second draw of a
      pick exceeds `p`. It fails when the draws run out first. */
  method DrawConnections(id: nat, nodes: seq<AppNode>, p: real, random: seq<real>, start: nat)
    returns (ok: bool, connections: seq<nat>, used: nat)
    requires Draws(random) && |nodes| > 0 && start <= |random|
    ensures start <= used <= |random|
    ensures ok ==> |connections| >= 1 && used == start + 2 * |connections|
    ensures ok ==> LinkFollowsDraws(Hyperlink(id, connections), nodes, p, random, start)
    ensures !ok ==> used == start + 2 * |connections| && used + 2 > |random|
    ensures !ok ==> PickedSoFar(connections, nodes, p, random, start)
  {
    connections := [];
    used := start;
    while true
      invariant start <= used <= |random|
      invariant used == start + 2 * |connections|
      invariant PickedSoFar(connections, nodes, p, random, start)
      decreases |random| - used
    {
      if used + 2 > |random| {
        return false, connections, used;
      }
      var j := DrawIndex(random[used], |nodes|);
      var stop := random[used + 1] > p;
      if stop {
        PickedSoFarFinish(id, connections, nodes, p, random, start);
      } else {
        PickedSoFarExtend(connections, nodes, p, random, start);
      }
      connections := connections + [nodes[j].id];
      used := used + 2;
      if stop {
        return true, connections, used;
      }
    }
  }

  /** Where `createLinks(count, nodes, p)` stands when the draws run out:
      hyperlinks `ls` are complete, numbered in order and follow the draws;
      hyperlink `|ls|` has picked `cs` so far, none of them ending it; and
      fewer than two draws remain for its next pick. */
  predicate StalledAt(count: int, ls: seq<Hyperlink>, cs: seq<nat>, nodes: seq<AppNode>, p: real, random: seq<real>) {
    |ls| < count &&
    (forall k :: 0 <= k < |ls| ==> ls[k].id == k && |ls[k].connections| >= 1) &&
    FollowDraws(ls, nodes, p, random) &&
    PickedSoFar(cs, nodes, p, random, 2 * TotalConnections(ls)) &&
    2 * (TotalConnections(ls) + |cs|) + 2 > |random|
  }

  /** The draws run out before `createLinks(count, nodes, p)` returns. */
  ghost predicate DrawsRunOut(count: int, nodes: seq<AppNode>, p: real, random: seq<real>) {
    exists ls, cs :: StalledAt(count, ls, cs, nodes, p, random)
  }

  /** The draws determine a hyperlink: two non-empty hyperlinks that follow
      the same draws from the same offset have the same connections. */
  lemma LinkDrawsDetermine(a: Hyperlink, b: Hyperlink, nodes: seq<AppNode>, p: real, random: seq<real>, at: nat)
    requires LinkFollowsDraws(a, nodes, p, random, at) && |a.connections| >= 1
    requires LinkFollowsDraws(b, nodes, p, random, at) && |b.connections| >= 1
    ensures a.connections == b.connections
  {
    var m, n := |a.connections| - 1, |b.connections| - 1;
    assert random[at + 2 * m + 1] > p && random[at + 2 * n + 1] > p;
    assert m == n;
  }

  /** A hyperlink that the draws complete leaves at least two draws after
      every run of picks from its offset that has not been ended. */
  lemma OpenPicksLeaveDraws(l: Hyperlink, cs: seq<nat>, nodes: seq<AppNode>, p: real, random: seq<real>, at: nat)
    requires LinkFollowsDraws(l, nodes, p, random, at) && |l.connections| >= 1
    requires PickedSoFar(cs, nodes, p, random, at)
    ensures at + 2 * |cs| + 2 <= |random|
  {
    var m := |l.connections| - 1;
    assert random[at + 2 * m + 1] > p;
    assert |cs| <= m;
    assert at + 2 * |cs| + 1 < |random|;
  }

  /** Prefixes that agree up to `k - 1` and at `k - 1` agree up to `k`. */
  lemma PrefixExtend(xs: seq<Hyperlink>, ys: seq<Hyperlink>, k: nat)
    requires 0 < k <= |xs| && k <= |ys|
    requires xs[..k - 1] == ys[..k - 1] && xs[k - 1] == ys[k - 1]
    ensures xs[..k] == ys[..k]
  {
    assert xs[..k] == xs[..k - 1] + [xs[k - 1]];
    assert ys[..k] == ys[..k - 1] + [ys[k - 1]];
  }

  /** Two lists that follow the same draws and agree before position `k`
      agree at `k` as well, given the same number there. */
  lemma FollowDrawsNext(xs: seq<Hyperlink>, ys: seq<Hyperlink>, nodes: seq<AppNode>, p: real, random: seq<real>, k: nat)
    requires FollowDraws(xs, nodes, p, random) && FollowDraws(ys, nodes, p, random)
    requires k < |xs| && k < |ys| && xs[..k] == ys[..k]
    requires xs[k].id == ys[k].id && |xs[k].connections| >= 1 && |ys[k].connections| >= 1
    ensures xs[k] == ys[k]
  {
    var at := 2 * TotalConnections(xs[..k]);
    assert LinkFollowsDraws(xs[k], nodes, p, random, at);
    assert LinkFollowsDraws(ys[k], nodes, p, random, at);
    LinkDrawsDetermine(xs[k], ys[k], nodes, p, random, at);
  }

  /** Two lists of hyperlinks numbered in order, each non-empty and following
      the draws, agree on their common prefix. */
  lemma {:induction false} FollowDrawsPrefix(xs: seq<Hyperlink>, ys: seq<Hyperlink>, nodes: seq<AppNode>, p: real, random: seq<real>, k: nat)
    requires FollowDraws(xs, nodes, p, random) && FollowDraws(ys, nodes, p, random)
    requires forall j :: 0 <= j < |xs| ==> xs[j].id == j && |xs[j].connections| >= 1
    requires forall j :: 0 <= j < |ys| ==> ys[j].id == j && |ys[j].connections| >= 1
    requires k <= |xs| && k <= |ys|
    ensures xs[..k] == ys[..k]
  {
    if k > 0 {
      FollowDrawsPrefix(xs, ys, nodes, p, random, k - 1);
      FollowDrawsNext(xs, ys, nodes, p, random, k - 1);
      PrefixExtend(xs, ys, k);
    }
  }

  /** When the draws complete all `count` hyperlinks, they do not run out:
      success and running out of draws exclude each other. */
  lemma CompleteLinksDoNotRunOut(count: int, links: seq<Hyperlink>, nodes: seq<AppNode>, p: real, random: seq<real>)
    requires |links| == Max(count, 0)
    requires forall j :: 0 <= j < |links| ==> links[j].id == j && |links[j].connections| >= 1
    requires FollowDraws(links, nodes, p, random)
    ensures !DrawsRunOut(count, nodes, p, random)
  {
    forall ls, cs | StalledAt(count, ls, cs, nodes, p, random)
      ensures false
    {
      FollowDrawsPrefix(links, ls, nodes, p, random, |ls|);
      assert links[..|ls|] == ls;
      var at := 2 * TotalConnections(ls);
      assert LinkFollowsDraws(links[|ls|], nodes, p, random, at);
      OpenPicksLeaveDraws(links[|ls|], cs, nodes, p, random, at);
    }
  }

  /** `createLinks(count, nodes, p)`, reading `Math.random` from `random`:
      hyperlink `i` keeps drawing a random node until a second draw exceeds
      `p`. Every hyperlink gets at least one connection, each naming a node,
      every connection consumed exactly two draws, and the connections are
      the ones the draws pick. With no nodes the first draw picks `undefined`
      and the source throws. */
  method CreateLinks(count: int, nodes: seq<AppNode>, p: real, random: seq<real>)
    returns (r: Result<seq<Hyperlink>>, used: nat)
    requires Draws(random)
    ensures used <= |random|
    ensures count > 0 && nodes == [] ==> r == Err(NoNodes)
    ensures r.Err? ==> (r.error == NoNodes <==> count > 0 && nodes == [])
    ensures r == Err(RandomExhausted) ==> DrawsRunOut(count, nodes, p, random)
    ensures r.Ok? ==> !DrawsRunOut(count, nodes, p, random)
    ensures r.Ok? ==> |r.value| == Max(count, 0)
    ensures r.Ok? ==> forall i :: 0 <= i < |r.value| ==> r.value[i].id == i
    ensures r.Ok? ==> forall i :: 0 <= i < |r.value| ==> |r.value[i].connections| >= 1
    ensures r.Ok? ==> Connected(r.value, nodes)
    ensures r.Ok? ==> FollowDraws(r.value, nodes, p, random)
    ensures r.Ok? ==> used == 2 * TotalConnections(r.value)
  {
    used := 0;
    if count > 0 && nodes == [] {
      return Err(NoNodes), used;
    }
    var links: seq<Hyperlink> := [];
    var i := 0;
    while i < count
      invariant 0 <= i <= Max(count, 0)
      invariant used <= |random|
      invariant |links| == i
      invariant forall k :: 0 <= k < i ==> links[k].id == k && |links[k].connections| >= 1
      invariant FollowDraws(links, nodes, p, random)
      invariant used == 2 * TotalConnections(links)
    {
      var ok, connections, next := DrawConnections(i, nodes, p, random, used);
      if !ok {
        assert StalledAt(count, links, connections, nodes, p, random);
        return Err(RandomExhausted), next;
      }
      var link := Hyperlink(i, connections);
      FollowDrawsAppend(links, link, nodes, p, random);
      assert (links + [link])[..|links|] == links;
      links, used := links + [link], next;
      i := i + 1;
    }
    FollowDrawsConnected(links, nodes, p, random);
    CompleteLinksDoNotRunOut(count, links, nodes, p, random);
    r := Ok(links);
  }

  // ---------------------------------------------------------------------
  // The graph handed to `Graph`.

  /** `_nodes`: a vertex `"l" + id` of type `"l"` per hyperlink, then a
      vertex `"n" + id` of type `"n"` per node. */
  function Vertices(links: seq<Hyperlink>, nodes: seq<AppNode>): (vs: seq<Vertex>)
    ensures |vs| == |links| + |nodes|
    ensures forall i :: 0 <= i < |links| ==> vs[i] == Vertex(VertexId('l', links[i].id), "l")
    ensures forall j :: 0 <= j < |nodes| ==> vs[|links| + j] == Vertex(VertexId('n', nodes[j].id), "n")
  {
    seq(|links|, i requires 0 <= i < |links| => Vertex(VertexId('l', links[i].id), "l"))
      + seq(|nodes|, j requires 0 <= j < |nodes| => Vertex(VertexId('n', nodes[j].id), "n"))
  }

  /** The edges of one hyperlink, one per connection, in order. */
  function LinkEdges(l: Hyperlink): (es: seq<Graph.LinkSpec>)
    ensures |es| == |l.connections|
    ensures forall k :: 0 <= k < |es| ==>
              es[k] == Graph.LinkSpec(VertexId('l', l.id), VertexId('n', l.connections[k]))
  {
    seq(|l.connections|, k requires 0 <= k < |l.connections| =>
      Graph.LinkSpec(VertexId('l', l.id), VertexId('n', l.connections[k])))
  }

  /** `_links`: `links.flatMap(l => l.connections.map(c => ...))`. */
  function Edges(links: seq<Hyperlink>): (es: seq<Graph.LinkSpec>)
    ensures |es| == TotalConnections(links)
  {
    if links == [] then []
    else Edges(links[..|links| - 1]) + LinkEdges(links[|links| - 1])
  }

  /** Order and multiplicity of the flattening: connection `k` of hyperlink
      `i` is the edge right after the edges of all earlier hyperlinks' and
      of its own first `k` connections. */
  lemma {:induction false} EdgesAt(links: seq<Hyperlink>, i: nat, k: nat)
    requires i < |links| && k < |links[i].connections|
    ensures TotalConnections(links[..i]) + k < |Edges(links)|
    ensures Edges(links)[TotalConnections(links[..i]) + k] == LinkEdges(links[i])[k]
  {
    var init := links[..|links| - 1];
    assert Edges(links) == Edges(init) + LinkEdges(links[|links| - 1]);
    if i == |links| - 1 {
      assert links[..i] == init;
    } else {
      EdgesAt(init, i, k);
      assert init[..i] == links[..i] && init[i] == links[i];
    }
  }

  /** An edge belongs to `_links` exactly when it joins some hyperlink to one
      of that hyperlink's connections. */
  lemma {:induction false} EdgeMembership(links: seq<Hyperlink>, e: Graph.LinkSpec)
    ensures e in Edges(links) <==>
      exists i, k :: 0 <= i < |links| && 0 <= k < |links[i].connections| &&
        e == Graph.LinkSpec(VertexId('l', links[i].id), VertexId('n', links[i].connections[k]))
  {
    if links != [] {
      var init, last := links[..|links| - 1], links[|links| - 1];
      EdgeMembership(init, e);
      assert Edges(links) == Edges(init) + LinkEdges(last);
      if e in Edges(links) {
        if e in LinkEdges(last) {
          var k :| 0 <= k < |LinkEdges(last)| && LinkEdges(last)[k] == e;
          assert links[|links| - 1] == last;
        } else {
          var i, k :| 0 <= i < |init| && 0 <= k < |init[i].connections| &&
            e == Graph.LinkSpec(VertexId('l', init[i].id), VertexId('n', init[i].connections[k]));
          assert links[i] == init[i];
        }
      } else {
        forall i, k | 0 <= i < |links| && 0 <= k < |links[i].connections|
          ensures e != Graph.LinkSpec(VertexId('l', links[i].id), VertexId('n', links[i].connections[k]))
        {
          if i < |init| {
            assert links[i] == init[i];
          } else {
            assert LinkEdges(last)[k] in LinkEdges(last);
          }
        }
      }
    }
  }

  /** Some vertex carries the id `id`. */
  predicate Names(vs: seq<Vertex>, id: string) {
    exists i :: 0 <= i < |vs| && vs[i].id == id
  }

  /** Every edge's source and target are ids of vertices: the resolution of
      link endpoints by id always finds a vertex. */
  lemma EdgeEndpointsAreVertices(links: seq<Hyperlink>, nodes: seq<AppNode>)
    requires Connected(links, nodes)
    ensures forall e :: e in Edges(links) ==>
      Names(Vertices(links, nodes), e.source) && Names(Vertices(links, nodes), e.target)
  {
    var vs := Vertices(links, nodes);
    forall e | e in Edges(links)
      ensures Names(vs, e.source) && Names(vs, e.target)
    {
      EdgeMembership(links, e);
      var i, k :| 0 <= i < |links| && 0 <= k < |links[i].connections| &&
        e == Graph.LinkSpec(VertexId('l', links[i].id), VertexId('n', links[i].connections[k]));
      assert vs[i].id == e.source;
      assert IsNodeId(nodes, links[i].connections[k]);
      var j :| 0 <= j < |nodes| && nodes[j].id == links[i].connections[k];
      assert vs[|links| + j].id == e.target;
    }
  }

  /** The numbers in a list are pairwise distinct. */
  predicate DistinctLinkIds(links: seq<Hyperlink>) {
    forall i, j :: 0 <= i < j < |links| ==> links[i].id != links[j].id
  }

  predicate DistinctNodeIds(nodes: seq<AppNode>) {
    forall i, j :: 0 <= i < j < |nodes| ==> nodes[i].id != nodes[j].id
  }

  /** The vertex ids are pairwise distinct when the hyperlink numbers and the
      node numbers are: the prefixes tell the two groups apart. */
  lemma VertexIdsDistinct(links: seq<Hyperlink>, nodes: seq<AppNode>)
    requires DistinctLinkIds(links) && DistinctNodeIds(nodes)
    ensures forall i, j :: 0 <= i < j < |links| + |nodes| ==>
      Vertices(links, nodes)[i].id != Vertices(links, nodes)[j].id
  {
    var vs := Vertices(links, nodes);
    forall i, j | 0 <= i < j < |links| + |nodes|
      ensures vs[i].id != vs[j].id
    {
      if j < |links| {
        VertexIdsInjective('l', 'l', links[i].id, links[j].id);
      } else if i < |links| {
        VertexIdsInjective('l', 'n', links[i].id, nodes[j - |links|].id);
      } else {
        VertexIdsInjective('n', 'n', nodes[i - |links|].id, nodes[j - |links|].id);
      }
    }
  }

  /** Once `Graph` holds one simulation node per vertex, carrying the
      vertex's id, every edge endpoint resolves to a node. */
  lemma EdgesResolve(links: seq<Hyperlink>, nodes: seq<AppNode>, sims: seq<SimNode>)
    requires Connected(links, nodes)
    requires |sims| == |links| + |nodes|
    requires forall i :: 0 <= i < |sims| ==> sims[i].id == Vertices(links, nodes)[i].id
    ensures forall e :: e in Edges(links) ==>
      Graph.Resolve(sims, e.source) != null && Graph.Resolve(sims, e.target) != null
  {
    var vs := Vertices(links, nodes);
    EdgeEndpointsAreVertices(links, nodes);
    forall e | e in Edges(links)
      ensures Graph.Resolve(sims, e.source) != null && Graph.Resolve(sims, e.target) != null
    {
      var a :| 0 <= a < |vs| && vs[a].id == e.source;
      var b :| 0 <= b < |vs| && vs[b].id == e.target;
      Graph.ResolveFinds(sims, a);
      Graph.ResolveFinds(sims, b);
    }
  }

  /** The `App` component: 20 nodes, 100 hyperlinks with probability 0.3 of
      one more connection, flattened for `Graph`. `links` are the hyperlinks
      the draws determine, and the graph is their flattening. Only running
      out of draws can fail. */
  method Build(random: seq<real>) returns (r: Result<(seq<Vertex>, seq<Graph.LinkSpec>)>, links: seq<Hyperlink>)
    requires Draws(random)
    ensures r.Err? ==> r.error == RandomExhausted
    ensures r.Err? <==> DrawsRunOut(100, seq(20, i requires 0 <= i < 20 => AppNode(i)), 0.3, random)
    ensures r.Ok? ==> |links| == 100
    ensures r.Ok? ==> forall i :: 0 <= i < 100 ==> links[i].id == i && |links[i].connections| >= 1
    ensures r.Ok? ==> FollowDraws(links, seq(20, i requires 0 <= i < 20 => AppNode(i)), 0.3, random)
    ensures r.Ok? ==> r.value == (Vertices(links, seq(20, i requires 0 <= i < 20 => AppNode(i))), Edges(links))
    ensures r.Ok? ==> |r.value.0| == 120
    ensures r.Ok? ==> forall i, j :: 0 <= i < j < |r.value.0| ==> r.value.0[i].id != r.value.0[j].id
    ensures r.Ok? ==> forall e :: e in r.value.1 ==>
      Names(r.value.0, e.source) && Names(r.value.0, e.target)
  {
    var nodes := CreateNodes(20);
    assert nodes == seq(20, i requires 0 <= i < 20 => AppNode(i));
    var made, _ := CreateLinks(100, nodes, 0.3, random);
    if made.Err? {
      return Err(made.error), [];
    }
    links := made.value;
    VertexIdsDistinct(links, nodes);
    EdgeEndpointsAreVertices(links, nodes);
    r := Ok((Vertices(links, nodes), Edges(links)));
  }

}

=== FILE: force_boundary.dfy ===
/** The hand-written d3 force `forceBoundary` (react-d3-graph/src/forceBoundary.ts):
    it caches one radius per node when the simulation initialises it, and on
    every tick clamps each node so that its disc stays inside a rectangle. */
module ForceBoundary {
  import opened SimNodes

  /** The rectangle `[left, right] x [top, bottom]` of the force's arguments. */
  datatype Box = Box(left: real, top: real, right: real, bottom: real)

  /** A node position. */
  datatype Point = Point(x: real, y: real)

  /** The force's `radius` argument: `null` (the default `0` behaves alike),
      a number, or a function of the node. */
  datatype RadiusArg = NoRadius | Fixed(value: real) | Extractor(f: SimNode -> real)

  /** `_radius(n)`: a number becomes a constant function, a missing radius
      becomes 0, and an extractor is applied to the node. */
  function RadiusOf(arg: RadiusArg, n: SimNode): (r: real)
    ensures arg.NoRadius? ==> r == 0.0
    ensures arg.Fixed? ==> r == arg.value
    ensures arg.Extractor? ==> r == arg.f(n)
  {
    match arg
    case NoRadius => 0.0
    case Fixed(v) => v
    case Extractor(f) => f(n)
  }

  /** A disc of radius `r` fits the box on both axes. */
  predicate Fits(r: real, b: Box) {
    b.right - b.left >= 2.0 * r && b.bottom - b.top >= 2.0 * r
  }

  /** The disc of radius `r` at `p` lies inside the box. */
  predicate Inside(p: Point, r: real, b: Box) {
    b.left <= p.x - r && p.x + r <= b.right && b.top <= p.y - r && p.y + r <= b.bottom
  }

  /** One axis of the clamp. Both tests read the coordinate as it was before
      the clamp, so when the interval is too narrow the `hi` test wins. */
  function ClampAxis(v: real, r: real, lo: real, hi: real): (c: real)
    ensures hi - lo >= 2.0 * r ==> lo <= c - r && c + r <= hi
    ensures lo <= v - r && v + r <= hi ==> c == v
    ensures c == v || c == lo + r || c == hi - r
    ensures v - r < lo && v + r <= hi ==> c == lo + r
    ensures v + r > hi ==> c == hi - r
  {
    var afterLo := if v - r < lo then lo + r else v;
    if v + r > hi then hi - r else afterLo
  }

  /** The effect of the force on one node of radius `r`. */
  function ClampPoint(p: Point, r: real, b: Box): (q: Point)
    ensures Fits(r, b) ==> Inside(q, r, b)
    ensures Inside(p, r, b) ==> q == p
  {
    Point(ClampAxis(p.x, r, b.left, b.right), ClampAxis(p.y, r, b.top, b.bottom))
  }

  /** The effect of one `force()` call on the positions `ps`, node `i`
      using the cached radius `rs[i]`. */
  function ClampAll(ps: seq<Point>, rs: seq<real>, b: Box): (qs: seq<Point>)
    requires |ps| <= |rs|
    ensures |qs| == |ps|
  {
    if ps == [] then [] else [ClampPoint(ps[0], rs[0], b)] + ClampAll(ps[1..], rs[1..], b)
  }

  /** Node `k` after the force is node `k` clamped with its own radius. */
  lemma {:induction false} ClampAllAt(ps: seq<Point>, rs: seq<real>, b: Box, k: nat)
    requires |ps| <= |rs| && k < |ps|
    ensures ClampAll(ps, rs, b)[k] == ClampPoint(ps[k], rs[k], b)
  {
    if k > 0 {
      ClampAllAt(ps[1..], rs[1..], b, k - 1);
    }
  }

  /** Containment: every node whose disc fits the box ends up inside it. */
  lemma {:induction false} ClampAllContained(ps: seq<Point>, rs: seq<real>, b: Box)
    requires |ps| <= |rs|
    ensures forall k :: 0 <= k < |ps| && Fits(rs[k], b) ==> Inside(ClampAll(ps, rs, b)[k], rs[k], b)
  {
    forall k | 0 <= k < |ps| && Fits(rs[k], b)
      ensures Inside(ClampAll(ps, rs, b)[k], rs[k], b)
    {
      ClampAllAt(ps, rs, b, k);
    }
  }

  /** Nodes already inside the box are left where they are. */
  lemma {:induction false} ClampAllKeepsInside(ps: seq<Point>, rs: seq<real>, b: Box)
    requires |ps| <= |rs|
    requires forall k :: 0 <= k < |ps| ==> Inside(ps[k], rs[k], b)
    ensures ClampAll(ps, rs, b) == ps
  {
    if ps != [] {
      ClampAllKeepsInside(ps[1..], rs[1..], b);
    }
  }

  /** When every cached radius fits the box, a second `force()` call changes
      nothing: the force is idempotent. */
  lemma {:induction false} ClampAllIdempotent(ps: seq<Point>, rs: seq<real>, b: Box)
    requires |ps| <= |rs|
    requires forall k :: 0 <= k < |ps| ==> Fits(rs[k], b)
    ensures ClampAll(ClampAll(ps, rs, b), rs, b) == ClampAll(ps, rs, b)
  {
    if ps != [] {
      ClampAllIdempotent(ps[1..], rs[1..], b);
    }
  }

  /** Axis independence: the new `x` depends only on the old `x`, the radius,
      `left` and `right`; the new `y` only on the old `y`, the radius, `top`
      and `bottom`. */
  lemma AxisIndependence(p: Point, q: Point, r: real, b: Box, c: Box)
    ensures p.x == q.x && b.left == c.left && b.right == c.right ==>
              ClampPoint(p, r, b).x == ClampPoint(q, r, c).x
    ensures p.y == q.y && b.top == c.top && b.bottom == c.bottom ==>
              ClampPoint(p, r, b).y == ClampPoint(q, r, c).y
  {
  }

  /** A disc that overflows both edges of an axis lands against the right
      (respectively bottom) edge. */
  lemma BothEdgesCrossedRightWins(p: Point, r: real, b: Box)
    ensures p.x - r < b.left && p.x + r > b.right ==> ClampPoint(p, r, b).x == b.right - r
    ensures p.y - r < b.top && p.y + r > b.bottom ==> ClampPoint(p, r, b).y == b.bottom - r
  {
  }

  /** The positions of a node array, in order. */
  ghost function Positions(ns: seq<SimNode>): (ps: seq<Point>)
    reads ns
    ensures |ps| == |ns|
    ensures forall k :: 0 <= k < |ns| ==> ps[k] == Point(ns[k].x, ns[k].y)
  {
    seq(|ns|, k requires 0 <= k < |ns| reads ns => Point(ns[k].x, ns[k].y))
  }

  /** The closure returned by `forceBoundary(left, top, right, bottom, radius)`. */
  class BoundaryForce {
    const left: real
    const top: real
    const right: real
    const bottom: real
    const radius: RadiusArg
    /** `_nodes`: undefined until the simulation calls `initialize`. */
    var nodes: Option<seq<SimNode>>
    /** `_radii`: the radius of node `i` as computed by the last `initialize`. */
    var radii: seq<real>

    ghost predicate Valid()
      reads this
    {
      nodes.Some? ==> |nodes.value| <= |radii|
    }

    function Bounds(): Box {
      Box(left, top, right, bottom)
    }

    /** The nodes the force acts on (none before `initialize`). */
    function Members(): seq<SimNode>
      reads this
    {
      if nodes.Some? then nodes.value else []
    }

    constructor (left: real, top: real, right: real, bottom: real, radius: RadiusArg)
      ensures Valid()
      ensures Bounds() == Box(left, top, right, bottom) && this.radius == radius
      ensures nodes == None && radii == []
    {
      this.left, this.top, this.right, this.bottom := left, top, right, bottom;
      this.radius := radius;
      nodes := None;
      radii := [];
    }

    /** `force.initialize(nodes)`: remembers the nodes and caches each one's
        radius; a missing node array returns before touching the cache. Radii
        cached for indices past the new array are kept. */
    method Initialize(ns: Option<seq<SimNode>>)
      modifies this`nodes, this`radii
      ensures Valid()
      ensures nodes == ns
      ensures ns.None? ==> radii == old(radii)
      ensures ns.Some? ==> |radii| == Max(|old(radii)|, |ns.value|)
      ensures ns.Some? ==> forall k :: 0 <= k < |ns.value| ==> radii[k] == RadiusOf(radius, ns.value[k])
      ensures ns.Some? ==> forall k :: |ns.value| <= k < |radii| ==> radii[k] == old(radii[k])
    {
      nodes := ns;
      if ns.None? {
        return;
      }
      var s := ns.value;
      for i := 0 to |s|
        invariant nodes == ns
        invariant |radii| == Max(|old(radii)|, i)
        invariant forall k :: 0 <= k < i ==> radii[k] == RadiusOf(radius, s[k])
        invariant forall k :: i <= k < |radii| ==> radii[k] == old(radii[k])
      {
        var r := RadiusOf(radius, s[i]);
        if i < |radii| {
          radii := radii[i := r];
        } else {
          radii := radii + [r];
        }
      }
    }

    /** The body of the force's loop for one node `n` of radius `r`: both
        tests of an axis read the coordinate as it was before the clamp. */
    method ClampNode(n: SimNode, r: real)
      modifies n`x, n`y
      ensures Point(n.x, n.y) == ClampPoint(old(Point(n.x, n.y)), r, Bounds())
    {
      var x := n.x;
      var y := n.y;
      if x - r < left { n.x := left + r; }
      if x + r > right { n.x := right - r; }
      if y - r < top { n.y := top + r; }
      if y + r > bottom { n.y := bottom - r; }
    }

    /** `force()`: clamps every node in place. Only `x` and `y` of the nodes
        may change. Calling it before `initialize` fails (`ok` is false), as
        reading the length of the undefined node array throws. */
    method Force() returns (ok: bool)
      requires Valid()
      requires Distinct(Members())
      modifies Members()`x, Members()`y
      ensures ok == nodes.Some?
      ensures Positions(Members()) == ClampAll(old(Positions(Members())), radii, Bounds())
    {
      if nodes.None? {
        return false;
      }
      var ns := nodes.value;
      ghost var before := Positions(ns);
      var i := 0;
      while i < |ns|
        invariant 0 <= i <= |ns|
        invariant forall k :: 0 <= k < i ==> Point(ns[k].x, ns[k].y) == ClampPoint(before[k], radii[k], Bounds())
        invariant forall k :: i <= k < |ns| ==> ns[k].x == before[k].x && ns[k].y == before[k].y
      {
        ClampNode(ns[i], radii[i]);
        i := i + 1;
      }
      forall k | 0 <= k < |ns|
        ensures Positions(ns)[k] == ClampAll(before, radii, Bounds())[k]
      {
        ClampAllAt(before, radii, Bounds(), k);
      }
      return true;
    }
  }

  /** Two consecutive `force()` calls over nodes that all fit the box leave
      them where the first call put them. */
  method ForceTwice(f: BoundaryForce) returns (ok: bool)
    requires f.Valid() && Distinct(f.Members())
    requires forall k :: 0 <= k < |f.Members()| ==> Fits(f.radii[k], f.Bounds())
    modifies f.Members()`x, f.Members()`y
    ensures ok == f.nodes.Some?
    ensures Positions(f.Members()) == ClampAll(old(Positions(f.Members())), f.radii, f.Bounds())
    ensures forall k :: 0 <= k < |f.Members()| ==> Inside(Positions(f.Members())[k], f.radii[k], f.Bounds())
  {
    ghost var before := Positions(f.Members());
    ok := f.Force();
    ok := f.Force();
    ClampAllIdempotent(before, f.radii, f.Bounds());
    ClampAllContained(before, f.radii, f.Bounds());
  }
}

=== FILE: graph.dfy ===
/** The glue of the `Graph` component (react-d3-graph/src/Graph.tsx): per-type
    visual and force parameters, the boundary rectangle, the view box and its
    pan/zoom handlers, the drag pin protocol, link-endpoint resolution by id
    and the tick handler's endpoint rule. */
module Graph {
  import opened SimNodes
  import opened ForceBoundary

  /** The `width`/`height` props default to 600. */
  const DefaultWidth: real := 600.0
  const DefaultHeight: real := 600.0

  /** An `ILink` prop: the ids of its two endpoints. */
  datatype LinkSpec = LinkSpec(source: string, target: string)

  // ---------------------------------------------------------------------
  // Per-type parameters. `n` may be undefined, hence `SimNode?`.

  /** `isNode(n)`: `n?.type === "n"`; an undefined node is not a node. */
  predicate IsNode(n: SimNode?)
    ensures IsNode(n) ==> n != null && n.kind == "n"
    ensures n == null ==> !IsNode(n)
  {
    n != null && n.kind == "n"
  }

  /** The fill thickness: 15 for `"n"` nodes, 5 for everything else. */
  function FillThickness(n: SimNode?): (t: real)
    ensures t == 15.0 <==> IsNode(n)
    ensures t == 5.0 <==> !IsNode(n)
  {
    if IsNode(n) then 15.0 else 5.0
  }

  /** The stroke thickness: 3 for `"n"` nodes, 2 for everything else. */
  function StrokeThickness(n: SimNode?): (t: real)
    ensures t == 3.0 <==> IsNode(n)
    ensures t == 2.0 <==> !IsNode(n)
    ensures t < FillThickness(n)
  {
    if IsNode(n) then 3.0 else 2.0
  }

  /** The radius the boundary force and the collision force see: fill plus
      stroke, 18 for an `"n"` node and 7 for anything else. */
  function Radius(n: SimNode?): (r: real)
    ensures IsNode(n) ==> r == 18.0
    ensures !IsNode(n) ==> r == 7.0
  {
    FillThickness(n) + StrokeThickness(n)
  }

  function FillColor(n: SimNode?): (c: string)
    ensures c == "#f66" <==> IsNode(n)
    ensures c == "#66f" <==> !IsNode(n)
  {
    if IsNode(n) then "#f66" else "#66f"
  }

  /** The stroke is white exactly for the selected node; otherwise it is
      chosen by type. Selection takes precedence over type. */
  function StrokeColor(n: SimNode?, selection: string): (c: string)
    ensures c == "#fff" <==> n != null && n.id == selection
    ensures c == "#833" <==> IsNode(n) && n.id != selection
    ensures c == "#338" <==> !IsNode(n) && !(n != null && n.id == selection)
  {
    if n != null && n.id == selection then "#fff"
    else if IsNode(n) then "#833" else "#338"
  }

  /** Many-body strength: `"n"` nodes repel with -500, all others not at all. */
  function Charge(n: SimNode?): (s: real)
    ensures s <= 0.0
    ensures s != 0.0 <==> IsNode(n)
    ensures IsNode(n) ==> s == -500.0
  {
    if IsNode(n) then -500.0 else 0.0
  }

  /** Collision radius: the drawn radius plus a padding of 2. */
  function CollisionRadius(n: SimNode?): (r: real)
    ensures r == if IsNode(n) then 20.0 else 9.0
    ensures r > Radius(n)
  {
    Radius(n) + 2.0
  }

  // ---------------------------------------------------------------------
  // The boundary force the component installs.

  /** `[-width / 2, -height / 2, +width / 2, +height / 2]`. */
  function Boundary(width: real, height: real): (b: Box)
    ensures b.left == -b.right && b.top == -b.bottom
    ensures b.right - b.left == width && b.bottom - b.top == height
  {
    Box(-width / 2.0, -height / 2.0, width / 2.0, height / 2.0)
  }

  /** Every node's disc fits a boundary at least 36 units on each side, so
      the boundary force keeps every node of such a graph inside it. */
  lemma EveryNodeFits(width: real, height: real)
    requires width >= 36.0 && height >= 36.0
    ensures forall n: SimNode? :: Fits(Radius(n), Boundary(width, height))
  {
  }

  /** The default 600 x 600 boundary holds every node. */
  lemma DefaultBoundaryFits()
    ensures forall n: SimNode? :: Fits(Radius(n), Boundary(DefaultWidth, DefaultHeight))
  {
    EveryNodeFits(DefaultWidth, DefaultHeight);
  }

  /** `forceBoundary(...boundary, getRadius)`. */
  method NewBoundaryForce(width: real, height: real) returns (f: BoundaryForce)
    ensures fresh(f) && f.Valid()
    ensures f.Bounds() == Boundary(width, height)
    ensures f.radius.Extractor? && forall n: SimNode :: RadiusOf(f.radius, n) == Radius(n)
    ensures f.nodes == None && f.radii == []
  {
    var b := Boundary(width, height);
    f := new BoundaryForce(b.left, b.top, b.right, b.bottom, Extractor(n => Radius(n)));
  }

  // ---------------------------------------------------------------------
  // Viewport: view box, zoom and pan.

  /** An SVG `viewBox`: its top-left corner and its size. */
  datatype ViewBox = ViewBox(minX: real, minY: real, w: real, h: real)

  /** The view state shared by the zoom and pan handlers: `center` and
      `zoomK.current`. */
  class Viewport {
    const width: real
    const height: real
    var centerX: real
    var centerY: real
    var zoomK: real

    ghost predicate Valid()
      reads this
    {
      zoomK > 0.0
    }

    constructor (width: real, height: real)
      ensures Valid()
      ensures this.width == width && this.height == height
      ensures centerX == 0.0 && centerY == 0.0 && zoomK == 1.0
    {
      this.width, this.height := width, height;
      centerX, centerY, zoomK := 0.0, 0.0, 1.0;
    }

    /** `getDims()`: the visible extent, which shrinks as the zoom grows. */
    function Dims(): (d: (real, real))
      reads this
      requires Valid()
      ensures d.0 * zoomK == width && d.1 * zoomK == height
    {
      (width / zoomK, height / zoomK)
    }

    /** `getViewBox()`: a box centred on `center` whose size times the zoom
        is the component's size. */
    function CurrentViewBox(): (v: ViewBox)
      reads this
      requires Valid()
      ensures v.w * zoomK == width && v.h * zoomK == height
      ensures v.minX + v.w / 2.0 == centerX && v.minY + v.h / 2.0 == centerY
    {
      var d := Dims();
      ViewBox(centerX - d.0 / 2.0, centerY - d.1 / 2.0, d.0, d.1)
    }

    /** The zoom handler: adopts the event's scale. */
    method Zoom(k: real)
      requires k > 0.0
      modifies this`zoomK
      ensures Valid() && zoomK == k
    {
      zoomK := k;
    }

    /** The pan handler: moves the centre against the pointer delta, in
        simulation units. The zoom and the size of the view box stay. */
    method Pan(dx: real, dy: real)
      requires Valid()
      modifies this`centerX, this`centerY
      ensures Valid()
      ensures centerX == old(centerX) - dx / zoomK && centerY == old(centerY) - dy / zoomK
      ensures CurrentViewBox().w == old(CurrentViewBox().w) && CurrentViewBox().h == old(CurrentViewBox().h)
      ensures CurrentViewBox().minX == old(CurrentViewBox().minX) - dx / zoomK
      ensures CurrentViewBox().minY == old(CurrentViewBox().minY) - dy / zoomK
    {
      centerX := centerX - dx / zoomK;
      centerY := centerY - dy / zoomK;
    }
  }

  // ---------------------------------------------------------------------
  // Input dispatch.

  datatype EventKind = Mouse | Wheel | Touch

  /** A pointer event: its kind and its `button` (undefined for touch). */
  datatype InputEvent = InputEvent(kind: EventKind, button: Option<int>)

  /** The node-drag filter: primary button only. */
  predicate DragAccepts(e: InputEvent)
    ensures DragAccepts(e) ==> e.button.Some? && !PanAccepts(e)
  {
    e.button == Some(0)
  }

  /** The pan filter: middle button only. */
  predicate PanAccepts(e: InputEvent)
    ensures PanAccepts(e) ==> e.button.Some? && e.button.value != 0
  {
    e.button == Some(1)
  }

  /** The zoom filter: wheel events only, whatever their button. */
  predicate ZoomAccepts(e: InputEvent)
    ensures ZoomAccepts(e) ==> e.kind != Mouse && e.kind != Touch
    ensures e.kind == Wheel ==> ZoomAccepts(e)
  {
    e.kind == Wheel
  }

  /** No press starts both a node drag and a pan, and only wheel events zoom. */
  lemma InputModalitiesDisjoint(e: InputEvent)
    ensures !(DragAccepts(e) && PanAccepts(e))
    ensures e.kind != Wheel ==> !ZoomAccepts(e)
    ensures e.button.None? ==> !DragAccepts(e) && !PanAccepts(e)
  {
  }

  // ---------------------------------------------------------------------
  // Drag protocol.

  /** The parts of the d3 simulation the drag handlers touch. */
  class Simulation {
    var alphaTarget: real
    /** Whether `restart()` has (re)started the tick timer. */
    var ticking: bool

    constructor ()
      ensures alphaTarget == 0.0 && ticking
    {
      alphaTarget, ticking := 0.0, true;
    }
  }

  /** A node is pinned while both `fx` and `fy` hold a value. */
  predicate Pinned(n: SimNode)
    reads n
  {
    n.fx.Some? && n.fy.Some?
  }

  /** `dragstarted`: pins the node where it is; the first active gesture
      (`active == 0`) also reheats the simulation. */
  method DragStarted(sim: Simulation, n: SimNode, active: nat)
    modifies sim, n`fx, n`fy
    ensures Pinned(n) && n.fx == Some(n.x) && n.fy == Some(n.y)
    ensures active == 0 ==> sim.alphaTarget == 0.3 && sim.ticking
    ensures active != 0 ==> sim.alphaTarget == old(sim.alphaTarget) && sim.ticking == old(sim.ticking)
  {
    if active == 0 {
      sim.alphaTarget := 0.3;
      sim.ticking := true;
    }
    n.fx := Some(n.x);
    n.fy := Some(n.y);
  }

  /** `dragged`: moves the pin to the pointer. */
  method Dragged(n: SimNode, px: real, py: real)
    modifies n`fx, n`fy
    ensures Pinned(n) && n.fx == Some(px) && n.fy == Some(py)
  {
    n.fx := Some(px);
    n.fy := Some(py);
  }

  /** `dragended`: releases the pin; the last active gesture lets the
      simulation cool down. */
  method DragEnded(sim: Simulation, n: SimNode, active: nat)
    modifies sim`alphaTarget, n`fx, n`fy
    ensures n.fx == None && n.fy == None
    ensures active == 0 ==> sim.alphaTarget == 0.0
    ensures active != 0 ==> sim.alphaTarget == old(sim.alphaTarget)
  {
    if active == 0 {
      sim.alphaTarget := 0.0;
    }
    n.fx := None;
    n.fy := None;
  }

  /** A whole single-pointer gesture: press, move to (px, py), release. It
      leaves no pin behind, the simulation cooling, and the position alone:
      the handlers never write `x`, `y`, `vx` or `vy`. */
  method DragGesture(sim: Simulation, n: SimNode, px: real, py: real)
    modifies sim, n`fx, n`fy
    ensures !Pinned(n) && n.fx == None && n.fy == None
    ensures sim.alphaTarget == 0.0 && sim.ticking
  {
    DragStarted(sim, n, 0);
    Dragged(n, px, py);
    DragEnded(sim, n, 0);
  }

  // ---------------------------------------------------------------------
  // Selection.

  /** The selected node id (`useState("")`). */
  class Selection {
    var selected: string

    constructor ()
      ensures selected == ""
    {
      selected := "";
    }

    /** The click handler selects the clicked node (it does not toggle). */
    method Click(n: SimNode)
      modifies this
      ensures selected == n.id
    {
      selected := n.id;
    }
  }

  predicate DistinctIds(ns: seq<SimNode>) {
    forall i, j :: 0 <= i < j < |ns| ==> ns[i].id != ns[j].id
  }

  /** With distinct ids, selecting a node whitens its stroke and no other. */
  lemma SelectionHighlightsOne(ns: seq<SimNode>, k: nat)
    requires DistinctIds(ns) && k < |ns|
    ensures forall i :: 0 <= i < |ns| ==> (StrokeColor(ns[i], ns[k].id) == "#fff" <==> i == k)
  {
  }

  // ---------------------------------------------------------------------
  // Link resolution and the tick handler.

  /** `ns[i]` is the last node of `ns` that carries `id`. */
  predicate LastWithId(ns: seq<SimNode>, i: int, id: string) {
    0 <= i < |ns| && ns[i].id == id && forall j :: i < j < |ns| ==> ns[j].id != id
  }

  /** `forceLink(...).id(n => n.id)`: the node a link endpoint id names.
      The lookup is built from the node array in order, so a later node
      shadows an earlier one with the same id; `null` when none has it. */
  function Resolve(ns: seq<SimNode>, id: string): (n: SimNode?)
    ensures n != null ==> n in ns && n.id == id
    ensures forall i :: LastWithId(ns, i, id) ==> n == ns[i]
    ensures n == null <==> forall i :: 0 <= i < |ns| ==> ns[i].id != id
  {
    if ns == [] then null
    else if ns[|ns| - 1].id == id then ns[|ns| - 1]
    else Resolve(ns[..|ns| - 1], id)
  }

  /** An id some node carries resolves. */
  lemma ResolveFinds(ns: seq<SimNode>, k: nat)
    requires k < |ns|
    ensures Resolve(ns, ns[k].id) != null
  {
  }

  /** With distinct ids, an id names exactly the node that carries it. */
  lemma ResolveUnique(ns: seq<SimNode>, k: nat)
    requires DistinctIds(ns) && k < |ns|
    ensures Resolve(ns, ns[k].id) == ns[k]
  {
  }

  /** A line segment from (x1, y1) to (x2, y2). */
  datatype Segment = Segment(x1: real, y1: real, x2: real, y2: real)

  /** The endpoint rule of the tick handler: the node's coordinate, or 0
      when the node is missing. */
  function Endpoint(n: SimNode?): (p: Point)
    reads n
    ensures n == null ==> p == Point(0.0, 0.0)
    ensures n != null ==> p == Point(n.x, n.y)
  {
    if n == null then Point(0.0, 0.0) else Point(n.x, n.y)
  }

  /** The line drawn for link `l` on a tick: each end sits at the last node
      carrying the end's id, or at the origin when no node carries it. */
  function LinkLine(ns: seq<SimNode>, l: LinkSpec): (s: Segment)
    reads ns
    ensures forall i :: LastWithId(ns, i, l.source) ==> s.x1 == ns[i].x && s.y1 == ns[i].y
    ensures forall j :: LastWithId(ns, j, l.target) ==> s.x2 == ns[j].x && s.y2 == ns[j].y
    ensures (forall i :: 0 <= i < |ns| ==> ns[i].id != l.source) ==> s.x1 == 0.0 && s.y1 == 0.0
    ensures (forall j :: 0 <= j < |ns| ==> ns[j].id != l.target) ==> s.x2 == 0.0 && s.y2 == 0.0
  {
    var a := Endpoint(Resolve(ns, l.source));
    var b := Endpoint(Resolve(ns, l.target));
    Segment(a.x, a.y, b.x, b.y)
  }

  /** With distinct ids, when both endpoint ids name a node, the drawn line
      joins the positions of the two nodes that carry those ids. */
  lemma LinkLineJoinsNodes(ns: seq<SimNode>, l: LinkSpec, i: nat, j: nat)
    requires DistinctIds(ns) && i < |ns| && j < |ns|
    requires ns[i].id == l.source && ns[j].id == l.target
    ensures LinkLine(ns, l) == Segment(ns[i].x, ns[i].y, ns[j].x, ns[j].y)
  {
  }
}

=== FILE: sim_nodes.dfy ===
/** The node record that d3's force simulation mutates: the graph's own
    `id`/`type` (react-d3-graph/src/Graph.tsx:5-8) plus the position,
    velocity and pin fields d3 adds to every `SimulationNodeDatum`. */
module SimNodes {

  /** An optional value; `None` stands for JavaScript's `null`/`undefined`. */
  datatype Option<T> = None | Some(value: T)

  /** A node of the simulation. `id` and `kind` (the source's `type`) are
      never reassigned; d3 and the interaction handlers update the rest. */
  class SimNode {
    const id: string
    const kind: string
    var x: real
    var y: real
    var vx: real
    var vy: real
    var fx: Option<real>
    var fy: Option<real>
  }

  /** The larger of two integers. */
  function Max(a: int, b: int): int {
    if a < b then b else a
  }

  /** No node object occurs twice in `ns`. */
  predicate Distinct(ns: seq<SimNode>) {
    forall i, j :: 0 <= i < j < |ns| ==> ns[i] != ns[j]
  }
}
